=== FILE: README.md ===
# Face-analysis request handlers, modelled in Dafny

This project models the decision logic of the three request handlers of the
`GradioApp` class in `app.py`:

- **face detection** (`detect_faces`). It validates the input image and runs
  the detector. It then finds the annotated image the detector wrote, under
  one of three naming conventions, and summarises the detections.
- **face reenactment** (`reenact_face`). It builds the output path
  `<root>/face_reenactment/<model>/<stem>_reenacted` and runs the reenactor.
  It then finds the comparison video the reenactor wrote as a side effect:
  three glob patterns are tried in the output path first, then in the
  directory of the returned path.
- **deepfake detection** (`detect_deepfakes`). It picks the image or else the
  video, and builds the weight table of the recognised models. It normalises
  the weights, runs the ensemble pipeline, and assembles the report. The
  report holds a confidence synthesised from the threshold and a 20-cell
  confidence bar. The risk-tier helper is defined in the handler but never
  used by the report.

The filesystem is a `FileSystem` value: the sequence of existing paths, in
the order a directory listing returns them. `os.path.exists` is membership.
`glob.glob` keeps, in listing order, the entries directly inside the
directory whose name matches the pattern. The detector, the reenactor and the
deepfake pipeline are not modelled. Their results are inputs:

- whether the factory raised;
- what the run returned, or the message it raised;
- the filesystem as the run left it.

Python's path helpers (`os.path.join`, `basename`, `dirname`, `splitext`) are
modelled with the semantics of `posixpath`. Floats are Dafny `real`s.
`int(x)` is truncation toward zero.

Modules: `Wrappers` (Option), `Outcomes` (the factory outcome shared by the
detector and the reenactor), `Paths`, `Files` (filesystem and glob
matching), `Artifacts` (priority search with fallback), `Weights`,
`Presentation` (confidence, bar, risk tier), `Deepfake`, `FaceDetection`,
`Reenactment`.

Behaviour worth noting:

- When both an image and a video are supplied, the image is used. This is
  not an error (app.py:227-232).
- Unknown model names are ignored silently (app.py:239-243).
- The comparison-video search tries exactly three patterns in the output
  path, then the same three in `dirname(result_path)` (app.py:175-196).
- The risk tier is computed by a helper but never appears in the report
  (app.py:285-300, 315-358).
- Every failure is reported as text, or as `(None, None)` for reenactment.

## Model

| member | source | states |
|---|---|---|
| Paths.JoinShape | app.py:72-75 | `os.path.join`: the result ends with the name. An absolute name is the whole result. A relative name follows the directory. One separator is inserted between them exactly when the directory is non-empty and does not already end with one, so the length is known exactly. |
| Paths.Basename | app.py:89 | The basename has no separator and is a suffix of the path. |
| Paths.BasenameIsLastComponent | app.py:89 | Whatever precedes the basename, if anything, is a separator: it is the longest separator-free suffix. |
| Paths.BasenameOfJoin | app.py:89-100 | The basename of any directory joined with a plain non-empty name is that name. |
| Paths.Dirname | app.py:191 | The dirname is a prefix of the path that ends at or before the last separator. It is empty iff the path has no separator. Everything between it and the last separator is separators. It does not end in a separator unless it consists of separators only. When everything up to the last separator is separators (`//a`), it is exactly that head (`//`), as posixpath keeps it. |
| Paths.LastIndexOf | app.py:89-90 | The result is -1 exactly when the character is absent. Otherwise it is the index of an occurrence with no occurrence after it (`rfind`). |
| Paths.JoinSplit | app.py:148-154 | For a directory that does not end in `/` and a non-empty name without `/`: `basename` of the joined path is the name, and `dirname` of it is the directory. |
| Paths.SplitExt | app.py:89-90 | Stem and extension concatenate back to the input. The extension is empty, or it is one leading dot followed by a run without `.` or `/`. |
| Paths.SplitExtCases | app.py:90 | An extension is found iff the last component has a dot preceded by a non-dot. Then the root ends just before the last dot. |
| Paths.NoDotNoExtension | app.py:90 | A path without dots splits into itself and an empty extension. |
| Paths.DotFileKeepsName | app.py:90 | A dot-file whose only dot is the leading one keeps its whole name as the root, with no extension. |
| Paths.Stem | app.py:153 | The stem has no `/` and is a prefix of the basename. |
| Paths.StemCases | app.py:153-168 | The stem is the whole basename iff the basename has no dot preceded by a non-dot. Otherwise it ends just before the basename's last dot. |
| Paths.StemOfJoinedFile | app.py:153 | The stem of `dir/stem.ext` is `stem`, when the stem is not only dots and neither part holds `/` (nor the extension `.`). |
| Files.Matches | app.py:184 | The matcher is `fnmatch` with `*` as the only wildcard. It has no contract of its own: the three lemmas below characterise it. |
| Files.LiteralMatches | app.py:176 | A pattern without `*` matches a name exactly when the name equals it. |
| Files.StarSuffixMatches | app.py:177-178 | `*` followed by a literal matches exactly the names ending in that literal. This is the `*.mp4` tail that matching `prefix*.mp4` reduces to once the prefix is consumed; no pattern in the source starts with `*`. |
| Files.PrefixStarSuffixMatches | app.py:177-178 | `prefix*suffix` matches exactly the names that start with the prefix and end with the suffix, without overlap. |
| Files.Glob | app.py:184 | A path is in the result iff it exists and is an entry of the directory whose name matches. When any entry matches, the first result comes no later in the listing than it. |
| Files.FilterKeepsFirst | app.py:184-186 | For any matching entry, the filter result is non-empty and its first element occurs at or before that entry. |
| Files.GlobLiteral | app.py:176-186 | For a literal name, glob finds something iff the joined path exists. The first hit is then that joined path. |
| Artifacts.FirstExistingIndex | app.py:99-103 | The returned index is the first candidate that exists. All earlier ones are missing, and the length means none exists. |
| Artifacts.FirstExisting | app.py:99-103 | The result is absent iff no candidate exists. Otherwise it exists and is the path of the first existing candidate. |
| Artifacts.FirstGlobIndex | app.py:183-187 | The returned index is the first pattern with a match. Every earlier pattern matches nothing, and the length means no pattern matches. |
| Artifacts.FirstGlob | app.py:183-187 | The result is absent iff no pattern matches. Otherwise it exists and is the first match of the first matching pattern. |
| Artifacts.SearchWithFallback | app.py:183-196 | The result is absent iff no pattern matches in either directory. A returned path exists. When any pattern matches in the primary directory, the result is the primary directory's first-pattern search. Otherwise it is the same ordered search in the fallback directory. |
| Artifacts.SearchResultMatches | app.py:183-196 | A returned path is an entry of the primary or the fallback directory whose name matches one of the patterns. |
| Artifacts.ExactNameWins | app.py:175-187 | If the first pattern is a literal name present in the primary directory, that path is returned, whatever the later patterns match. |
| Weights.Select | app.py:239-243 | An entry is kept iff it is in the table and its model was requested. |
| Weights.Normalize | app.py:252-255 | The keys and their order are kept. With a positive total every weight is divided by the total, and otherwise the table is unchanged. |
| Weights.TotalOfScale | app.py:253-255 | Dividing every weight by `t` divides the total by `t`. |
| Weights.NormalizedSumsToOne | app.py:252-255 | A table with a positive total normalises to weights summing to exactly 1, with the same keys in the same order. |
| Weights.NormalizedWeightsInUnit | app.py:253-255 | Normalising positive weights puts every weight in (0, 1]. |
| Weights.Configure | app.py:237-250 | The result is the "no model selected" error iff neither recognised name was requested. Otherwise the keys are exactly the recognised requested names. |
| Weights.ConfiguredWeightsSumToOne | app.py:237-255 | Every accepted selection has weights that sum to 1, each in (0, 1]. |
| Weights.NormalizedRegistryTables | app.py:252-255 | Normalising both registry models gives 0.5 each. Normalising either one alone gives 1.0. |
| Weights.ConfigureCases | app.py:239-255 | Both models give 0.5 each, in the order resnet_inception, efficientnet. One model gives weight 1.0. Neither gives the error. |
| Weights.ConfigureIgnoresOrderAndUnknowns | app.py:239-243 | Two requests that agree on which recognised names occur get the same configuration. Order, duplicates and unknown names do not matter. |
| Presentation.EffectiveConfidence | app.py:309-313 | The confidence lies in [0, 1] whenever the threshold does. At threshold 0.5 it is 0.5 for both verdicts. |
| Presentation.EffectiveConfidenceComplement | app.py:309-313 | The deepfake verdict reports the threshold itself. The two verdicts' confidences sum to 1. |
| Presentation.TruncToInt | app.py:281 | The result is the integer part of the input, truncated toward zero on both sides of 0. |
| Presentation.Repeat | app.py:282 | Repeating a character `n` times gives `max(n, 0)` copies of it. |
| Presentation.BarCells | app.py:279-282 | For a confidence in [0, 1] the bar has exactly 20 cells, each full or empty. Cell `i` is full iff the confidence covers the whole cell, that is (i+1)/20 <= confidence. |
| Presentation.FilledCellsInRange | app.py:281 | For a confidence in [0, 1] the full-cell count is floor(20·c), between 0 and 20. Confidence 1 gives an all-full bar and confidence 0 an all-empty bar. |
| Presentation.BarWidthOutsideUnit | app.py:281-282 | Outside [0, 1] the bar loses its width: 1.5 and -0.5 both give 30 cells. |
| Presentation.RiskLevelOf | app.py:285-300 | The tier is an alarm tier iff the verdict is deepfake. It is the top tier iff the confidence is at least 0.8, and the middle tier iff the confidence is in [0.6, 0.8). |
| Presentation.RiskLevelMonotone | app.py:285-300 | A higher confidence never gives a lower tier. |
| Presentation.HighThresholdDeepfakeIsHighRisk | app.py:285-313 | A deepfake verdict at threshold 0.8 reports confidence 0.8, which maps to the highest risk tier. |
| Deepfake.Usable | app.py:227-230 | A form input counts when it is present, non-empty and names an existing file. It is a predicate, and SelectMedia's contract states its role. |
| Deepfake.SelectMedia | app.py:224-234 | The image is chosen iff it is usable (non-empty and existing). Otherwise the video is chosen iff it is usable. Otherwise there is no media. The chosen path exists. |
| Deepfake.ImageWinsOverVideo | app.py:227-232 | When the image is usable, it is chosen whatever the video is. |
| Deepfake.AdviceFor | app.py:347-350 | The cautionary advice is given iff the verdict is deepfake. |
| Deepfake.Faithful | app.py:315-358 | What each kind of report line carries: the media kind, the file's basename, the request as given, the threshold, the verdict, the synthesised confidence with exactly its bar, the configured models and weights, the frame count (for a video only), the advice for the verdict, and the number of configured models. It is a predicate, used by the contracts below. |
| Deepfake.SummaryBlock | app.py:315-321 | The block has five lines: heading, file, media type, models used and threshold, in that order. Each carries its datum from the input. |
| Deepfake.VerdictBlock | app.py:325-328 | The block has two lines: the verdict, then the pipeline result. The verdict line carries the pipeline's verdict. The result line carries the synthesised confidence and exactly the bar of that confidence. |
| Deepfake.DetailsBlock | app.py:332-335 | The block has three lines: the configured models, their weights, and the algorithm line, in that order. |
| Deepfake.SummaryLines | app.py:315-336 | There are ten leading lines, each faithful to the input. None of them mentions frames, advice or the closing count. |
| Deepfake.ClosingLines | app.py:338-358 | There are exactly three closing lines for a video and two for an image. Each is faithful to the input and is a frame count, the advice or the closing count. For a video the frame count comes first. The advice is second to last, and the closing count of configured models is last. |
| Deepfake.BuildReport | app.py:315-358 | The report has exactly 13 lines for a video and 12 for an image. Every line is faithful to the input, so a frame count appears only for a video and carries the requested count, the advice follows the verdict, and every bar line shows the bar of the synthesised confidence. The last three lines are the video frame count (when present), the advice and the closing count. ReportNamesItsInputs pins the first ten lines. |
| Deepfake.ReportNamesItsInputs | app.py:315-335 | The first ten lines of the report, in order, are: the heading and media type of the chosen media; the file's basename; the request as given; the threshold; the verdict; the synthesised confidence with its bar; the configured models; their weights; and the algorithm line. Every verdict line in the report agrees with the pipeline. |
| Deepfake.RecommendationFollowsVerdict | app.py:345-350 | Every recommendation in a report is the advice for its verdict. |
| Deepfake.RecommendationDependsOnVerdictOnly | app.py:347-350 | Two reports with the same verdict carry the same recommendation, whatever else differs. |
| Deepfake.DetectDeepfakes | app.py:203-366 | No annotated media is ever returned. The upload error occurs iff neither input is usable. The model error occurs iff media is usable and no recognised model was requested. A pipeline failure is reported iff it raised after both checks passed. A report uses weights summing to 1. |
| Deepfake.NoModelsSkipsPipeline | app.py:245-262 | When no recognised model is requested, the response does not depend on the pipeline's outcome. |
| Deepfake.ClosingCountIsRecognisedModels | app.py:320-357 | The closing text counts recognised models, not the request length. `[efficientnet, efficientnet, xception]` is a request of length 3, and the report says 1 model. |
| FaceDetection.DetectionFolder | app.py:72-74 | For a plain model name, the folder is `gradio_output/face_detection/<model>` and does not end in `/`. |
| FaceDetection.JsonPath | app.py:75 | The JSON file's basename is `detections.json`. For a plain model name its dirname is the detection folder. |
| FaceDetection.AnnotatedCandidates | app.py:93-97 | There are three candidate names, built in order from the markers `_annotated`, `_detected`, `_detection`. Each is longer than stem and extension together. |
| FaceDetection.CandidatesFollowMarkers | app.py:93-97 | Candidate `i` is the stem, then marker `i` (`_annotated`, `_detected`, `_detection` in that order), then the extension. |
| FaceDetection.Entries | app.py:105-110 | There is one block per detection, in order, numbered from the start value onward. |
| FaceDetection.FindAnnotated | app.py:86-103 | A found annotated image exists and has a non-empty path. |
| FaceDetection.DetectFaces | app.py:35-123 | The checks run in order: missing image, missing file, detector creation. Each gives its own error and no paths. A detector that raises gives its message and no paths. A successful run always gives the summary, which counts every detection and numbers them 1..n in order. The JSON path is returned iff it exists after the run. A returned annotated path exists. |
| FaceDetection.AnnotatedIsFirstExistingCandidate | app.py:86-117 | After a successful run, no annotated path is returned iff no candidate exists. Otherwise the path returned is the first existing candidate in the detection folder. |
| Reenactment.OutputPath | app.py:148-154 | The output path's last component is `<stem>_reenacted`, whatever the model name. |
| Reenactment.ComparisonPatterns | app.py:175-179 | There are exactly three patterns. |
| Reenactment.PatternsNameComparisonVideos | app.py:175-179 | Every pattern starts with `comparison_` and ends with `.mp4`. |
| Reenactment.ModelFolder | app.py:148-150 | For a plain model name, the model folder is `gradio_output/face_reenactment/<model>` and does not end in `/`. |
| Reenactment.OutputPathLayout | app.py:148-154 | The output path is `gradio_output/face_reenactment/<model>/<stem>_reenacted`. Its basename is `<stem>_reenacted` and its dirname is the model folder. |
| Reenactment.ReenactFace | app.py:125-201 | Any factory or run failure, or a missing input, gives `(None, None)`. Otherwise the video is the returned path. The comparison is absent iff no pattern matches in the output path or in the returned path's directory. When a pattern matches in the output path, the comparison is the first match of the first matching pattern there. Otherwise it is the same ordered search in `dirname(result_path)`. A found comparison exists. |
| Reenactment.ExactPatternIsPlainName | app.py:176 | For stems without `*` or `/`, the exact comparison name is a non-empty literal without `/`. |
| Reenactment.ExactComparisonPreferred | app.py:175-187 | If `comparison_<src>_by_<drv>.mp4`, built from both stems, exists in the output path, it is returned even when the wildcard patterns match other files. |
| Reenactment.SourcePatternMatches | app.py:177 | The second pattern matches exactly the names starting with `comparison_<src>_by_` and ending in `.mp4`. |
| Reenactment.GenericPatternMatches | app.py:178 | The catch-all third pattern matches exactly the names that start with `comparison_` and end in `.mp4`. |
| Reenactment.ExactNameAlsoMatchesSourcePattern | app.py:175-177 | The exact name also matches the second pattern, so only the pattern order makes it win. |

## Left out

- `create_interface`, `launch` and `main` (app.py:368-743) are user-interface layout and event wiring, with no decision logic.
- `FaceDetector.create`/`detect`, `FaceReenactor.create`/`reenact_from_video` and `PipelineDeepfakeDetection(...).detect` are external collaborators whose source is not part of this model. Their results are inputs: factory outcome, run outcome, and the filesystem after the run.
- The arguments passed to those collaborators are not modelled, because their effect is only visible through the outcomes. These are the JSON and output-folder options, the deepfake output folder, `save_csv`, `num_frames` and `device=None`.
- Torch device auto-detection happens inside the pipeline and is not modelled.
- `os.makedirs` and `print` have no effect on the results. A failing `makedirs` lands in the catch-all handler, which is not modelled.
- The catch-all `except Exception` handlers are modelled only for exceptions the collaborators raise. Python errors from malformed arguments are not modelled, for example a `None` model list or a `None` result path reaching `dirname`.
- Files.Matches: only `*` is a wildcard. `?` and `[...]` in a file stem, which Python's glob would read as wildcards, are matched literally.
- Files.Glob: the directory part is taken literally even if it contains wildcard characters, and the hidden-file rule for patterns starting with `*` is not modelled (no pattern used here starts with `*`).
- Files.Glob: the OS order of glob results is modelled as the order of the `FileSystem` listing.
- Report text bytes are not modelled: emoji, markdown, `:.1%` and `:.3f` formatting, the dict repr of the weight table, and `str.title()`. The report is a sequence of structured lines carrying the same data.
- Floating-point rounding is not modelled, because weights and confidences are exact reals. For the weights used (0.5/1.0 and 0.5/0.5) IEEE arithmetic is exact too.
- Presentation.BarCells: full cells are counted over exact reals. Python computes `int((1.0 - t) * 20)` in binary floating point, where the product can fall just below an integer. For an authentic verdict at threshold 0.8 or 0.9, which the 0.1-step slider offers (app.py:684), Python shows 3 and 1 full cells. The model shows 4 and 2.
- Reenactment.ReenactFace: the reenactor's result is taken to be a string path, as its contract states. A `None` result, which would make `dirname` raise when the output path holds no comparison, is not modelled.
- Deepfake.DetectDeepfakes: the request's model list is a sequence of strings. A `None` list, which would raise inside the `in` test and become an error message, is not modelled.
- Reenactment.ExactComparisonPreferred: stated only for stems without `*`, because a stem containing `*` turns the "exact" pattern into a wildcard pattern.

=== FILE: artifacts.dfy ===
/** Discovery of files a collaborator wrote under its own naming convention:
    candidates are tried in priority order and the first hit wins; absence is
    an empty result, never an error. */
module Artifacts {
  import opened Wrappers
  import opened Paths
  import opened Files

  /** Position of the first of `names` whose path inside `dir` exists, or
      `|names|` when none does. */
  function FirstExistingIndex(fs: FileSystem, dir: string, names: seq<string>): (k: nat)
    ensures k <= |names|
    ensures forall j :: 0 <= j < k ==> !fs.Exists(Join(dir, names[j]))
    ensures k < |names| ==> fs.Exists(Join(dir, names[k]))
  {
    if names == [] then 0
    else if fs.Exists(Join(dir, names[0])) then 0
    else
      var k := 1 + FirstExistingIndex(fs, dir, names[1..]);
      assert forall j :: 1 <= j < |names| ==> names[j] == names[1..][j - 1];
      k
  }

  /** The path of the first of `names` that exists inside `dir`. */
  function FirstExisting(fs: FileSystem, dir: string, names: seq<string>): (r: Option<string>)
    ensures r.None? <==> forall i :: 0 <= i < |names| ==> !fs.Exists(Join(dir, names[i]))
    ensures r.Some? ==> fs.Exists(r.value)
    ensures r.Some? ==>
              var k := FirstExistingIndex(fs, dir, names);
              k < |names| && r.value == Join(dir, names[k])
  {
    var k := FirstExistingIndex(fs, dir, names);
    if k < |names| then Some(Join(dir, names[k])) else None
  }

  /** Position of the first pattern that matches anything in `dir`, or
      `|patterns|` when none does. */
  function FirstGlobIndex(fs: FileSystem, dir: string, patterns: seq<string>): (k: nat)
    ensures k <= |patterns|
    ensures forall j :: 0 <= j < k ==> Glob(fs, dir, patterns[j]) == []
    ensures k < |patterns| ==> Glob(fs, dir, patterns[k]) != []
  {
    if patterns == [] then 0
    else if Glob(fs, dir, patterns[0]) != [] then 0
    else
      var k := 1 + FirstGlobIndex(fs, dir, patterns[1..]);
      assert forall j :: 1 <= j < |patterns| ==> patterns[j] == patterns[1..][j - 1];
      k
  }

  /** The first match of the first pattern that matches anything in `dir`. */
  function FirstGlob(fs: FileSystem, dir: string, patterns: seq<string>): (r: Option<string>)
    ensures r.None? <==> forall i :: 0 <= i < |patterns| ==> Glob(fs, dir, patterns[i]) == []
    ensures r.Some? ==> fs.Exists(r.value)
    ensures r.Some? ==>
              var k := FirstGlobIndex(fs, dir, patterns);
              k < |patterns| && r.value == Glob(fs, dir, patterns[k])[0]
  {
    var k := FirstGlobIndex(fs, dir, patterns);
    if k < |patterns| then
      var found := Glob(fs, dir, patterns[k]);
      assert found[0] in found;
      Some(found[0])
    else None
  }

  /** Every pattern is tried in `primary` first; `fallback` is searched only
      when nothing matched there. */
  function SearchWithFallback(fs: FileSystem, primary: string, fallback: string, patterns: seq<string>): (r: Option<string>)
    ensures r.Some? ==> fs.Exists(r.value)
    ensures r.None? <==>
              forall i :: 0 <= i < |patterns| ==>
                Glob(fs, primary, patterns[i]) == [] && Glob(fs, fallback, patterns[i]) == []
    ensures (exists i :: 0 <= i < |patterns| && Glob(fs, primary, patterns[i]) != []) ==>
              r == FirstGlob(fs, primary, patterns)
    ensures (forall i :: 0 <= i < |patterns| ==> Glob(fs, primary, patterns[i]) == []) ==>
              r == FirstGlob(fs, fallback, patterns)
  {
    var here := FirstGlob(fs, primary, patterns);
    if here.Some? then here else FirstGlob(fs, fallback, patterns)
  }

  /** Whatever the search returns lies in one of the two directories and
      matches one of the patterns. */
  lemma SearchResultMatches(fs: FileSystem, primary: string, fallback: string, patterns: seq<string>)
    ensures var r := SearchWithFallback(fs, primary, fallback, patterns);
            r.Some? ==>
              exists i :: 0 <= i < |patterns| &&
                (InDirMatching(primary, patterns[i], r.value) || InDirMatching(fallback, patterns[i], r.value))
  {
    var r := SearchWithFallback(fs, primary, fallback, patterns);
    if r.None? {
    } else if FirstGlob(fs, primary, patterns).Some? {
      var p := r.value;
      var k := FirstGlobIndex(fs, primary, patterns);
      assert p in Glob(fs, primary, patterns[k]);
    } else {
      var p := r.value;
      var k := FirstGlobIndex(fs, fallback, patterns);
      assert p in Glob(fs, fallback, patterns[k]);
    }
  }

  /** When the first pattern is a literal name that exists in `primary`, that
      exact path is the answer, whatever the later patterns would match. */
  lemma ExactNameWins(fs: FileSystem, primary: string, fallback: string, patterns: seq<string>)
    requires |patterns| > 0
    requires patterns[0] != [] && Star !in patterns[0] && Sep !in patterns[0]
    requires fs.Exists(Join(primary, patterns[0]))
    ensures SearchWithFallback(fs, primary, fallback, patterns) == Some(Join(primary, patterns[0]))
  {
    GlobLiteral(fs, primary, patterns[0]);
  }
}

=== FILE: deepfake.dfy ===
/** The deepfake-detection request: pick the media file, build the weight
    table, run the (opaque) ensemble pipeline and assemble the report. */
module Deepfake {
  import opened Wrappers
  import opened Paths
  import opened Files
  import opened Weights
  import opened Presentation

  datatype MediaKind = Image | Video

  /** The media file chosen for analysis and its kind. */
  datatype Media = Media(path: string, kind: MediaKind)

  /** A form input counts when it is present, non-empty and names an existing
      file (Python truthiness of an optional string, then `os.path.exists`). */
  predicate Usable(fs: FileSystem, file: Option<string>) {
    file.Some? && file.value != [] && fs.Exists(file.value)
  }

  /** The image wins when usable; otherwise the video when usable; otherwise
      nothing. */
  function SelectMedia(fs: FileSystem, image: Option<string>, video: Option<string>): (r: Option<Media>)
    ensures Usable(fs, image) <==> r.Some? && r.value.kind == Image
    ensures !Usable(fs, image) && Usable(fs, video) <==> r.Some? && r.value.kind == Video
    ensures r.None? <==> !Usable(fs, image) && !Usable(fs, video)
    ensures r.Some? ==> fs.Exists(r.value.path)
    ensures r.Some? && r.value.kind == Image ==> r.value.path == image.value
    ensures r.Some? && r.value.kind == Video ==> r.value.path == video.value
  {
    if Usable(fs, image) then Some(Media(image.value, Image))
    else if Usable(fs, video) then Some(Media(video.value, Video))
    else None
  }

  /** When both inputs are usable the image is analysed and the video is
      ignored. */
  lemma ImageWinsOverVideo(fs: FileSystem, image: string, video: string)
    requires image != [] && fs.Exists(image)
    ensures SelectMedia(fs, Some(image), Some(video)) == Some(Media(image, Image))
  {
  }

  /** The closing advice, chosen by verdict polarity alone. */
  datatype Advice = TreatWithCaution | VerifyElsewhere

  function AdviceFor(isDeepfake: bool): (a: Advice)
    ensures a == TreatWithCaution <==> isDeepfake
  {
    if isDeepfake then TreatWithCaution else VerifyElsewhere
  }

  /** One line (or block) of the report, in the order it is emitted. */
  datatype ReportLine =
    | Heading(kind: MediaKind)
    | FileLine(name: string)
    | MediaTypeLine(kind: MediaKind)
    | ModelsUsed(requested: seq<string>)
    | ThresholdLine(threshold: real)
    | VerdictLine(isDeepfake: bool)
    | PipelineResult(bar: string, confidence: real)
    | PipelineModels(models: seq<string>)
    | ModelWeights(weights: seq<Weighted>)
    | AlgorithmLine
    | FramesAnalyzed(frames: int)
    | Recommendation(advice: Advice)
    | About(modelCount: nat)

  /** Everything the report is a function of. */
  datatype ReportInput = ReportInput(
    media: Media,
    requested: seq<string>,
    weights: seq<Weighted>,
    threshold: real,
    frames: int,
    isDeepfake: bool)

  /** What each kind of line carries, in terms of the request and the
      pipeline's verdict: the file's basename, the request as given, the
      threshold, the verdict, the synthesised confidence with exactly its
      bar, the configured models and weights, the frame count (for a video
      only), the advice for the verdict and the number of configured
      models. */
  predicate Faithful(line: ReportLine, input: ReportInput) {
    match line
    case Heading(kind) => kind == input.media.kind
    case FileLine(name) => name == Basename(input.media.path)
    case MediaTypeLine(kind) => kind == input.media.kind
    case ModelsUsed(requested) => requested == input.requested
    case ThresholdLine(threshold) => threshold == input.threshold
    case VerdictLine(isDeepfake) => isDeepfake == input.isDeepfake
    case PipelineResult(bar, confidence) =>
      confidence == EffectiveConfidence(input.isDeepfake, input.threshold) && bar == BarCells(confidence)
    case PipelineModels(models) => models == Models(input.weights)
    case ModelWeights(weights) => weights == input.weights
    case AlgorithmLine => true
    case FramesAnalyzed(frames) => input.media.kind == Video && frames == input.frames
    case Recommendation(advice) => advice == AdviceFor(input.isDeepfake)
    case About(modelCount) => modelCount == |input.weights|
  }

  /** Lines faithful to the input stay faithful when blocks are joined. */
  lemma FaithfulConcat(a: seq<ReportLine>, b: seq<ReportLine>, input: ReportInput)
    requires forall i :: 0 <= i < |a| ==> Faithful(a[i], input)
    requires forall i :: 0 <= i < |b| ==> Faithful(b[i], input)
    ensures forall i :: 0 <= i < |a + b| ==> Faithful((a + b)[i], input)
  {
  }

  /** The heading and the summary block: the media kind, the file's
      basename, the request as given and the threshold. */
  function SummaryBlock(input: ReportInput): (lines: seq<ReportLine>)
    ensures |lines| == 5
    ensures && lines[0].Heading? && lines[1].FileLine? && lines[2].MediaTypeLine?
            && lines[3].ModelsUsed? && lines[4].ThresholdLine?
    ensures forall i :: 0 <= i < |lines| ==> Faithful(lines[i], input)
  {
    var lines := [ Heading(input.media.kind),
      FileLine(Basename(input.media.path)),
      MediaTypeLine(input.media.kind),
      ModelsUsed(input.requested),
      ThresholdLine(input.threshold) ];
    assert Faithful(lines[0], input) && Faithful(lines[1], input) && Faithful(lines[2], input);
    assert Faithful(lines[3], input) && Faithful(lines[4], input);
    lines
  }

  /** The verdict block: the verdict and the bar of the confidence
      synthesised from the threshold. */
  function VerdictBlock(input: ReportInput): (lines: seq<ReportLine>)
    ensures |lines| == 2 && lines[0].VerdictLine? && lines[1].PipelineResult?
    ensures forall i :: 0 <= i < |lines| ==> Faithful(lines[i], input)
  {
    var confidence := EffectiveConfidence(input.isDeepfake, input.threshold);
    [ VerdictLine(input.isDeepfake), PipelineResult(BarCells(confidence), confidence) ]
  }

  /** The technical-details block: the configured models, their weights
      and the algorithm. */
  function DetailsBlock(input: ReportInput): (lines: seq<ReportLine>)
    ensures |lines| == 3 && lines[0].PipelineModels? && lines[1].ModelWeights? && lines[2].AlgorithmLine?
    ensures forall i :: 0 <= i < |lines| ==> Faithful(lines[i], input)
  {
    [ PipelineModels(Models(input.weights)), ModelWeights(input.weights), AlgorithmLine ]
  }

  /** The summary, verdict and technical-details blocks: every line is
      faithful to the input, and none mentions frames, advice or the
      closing count. */
  function SummaryLines(input: ReportInput): (lines: seq<ReportLine>)
    ensures |lines| == 10
    ensures forall i :: 0 <= i < |lines| ==>
              && Faithful(lines[i], input)
              && !lines[i].FramesAnalyzed? && !lines[i].Recommendation? && !lines[i].About?
  {
    SummaryBlock(input) + VerdictBlock(input) + DetailsBlock(input)
  }

  /** The closing blocks: the frame count for a video, the advice, and the
      about text with the number of configured models, which comes last. */
  function ClosingLines(input: ReportInput): (lines: seq<ReportLine>)
    ensures forall i :: 0 <= i < |lines| ==>
              && Faithful(lines[i], input)
              && (lines[i].FramesAnalyzed? || lines[i].Recommendation? || lines[i].About?)
    ensures |lines| == if input.media.kind == Video then 3 else 2
    ensures input.media.kind == Video ==> lines[0] == FramesAnalyzed(input.frames)
    ensures lines[|lines| - 2] == Recommendation(AdviceFor(input.isDeepfake))
    ensures lines[|lines| - 1] == About(|input.weights|)
  {
    var tail := [Recommendation(AdviceFor(input.isDeepfake)), About(|input.weights|)];
    if input.media.kind == Video then [FramesAnalyzed(input.frames)] + tail else tail
  }

  /** The report. Every line is faithful to the input, so the frame count
      appears only for a video, the advice follows the verdict and the bar
      shows the synthesised confidence. A video's frame count closes the
      technical details, then come the advice and, last, the closing count. */
  function BuildReport(input: ReportInput): (report: seq<ReportLine>)
    ensures forall i :: 0 <= i < |report| ==> Faithful(report[i], input)
    ensures |report| == if input.media.kind == Video then 13 else 12
    ensures input.media.kind == Video ==> report[|report| - 3] == FramesAnalyzed(input.frames)
    ensures report[|report| - 2] == Recommendation(AdviceFor(input.isDeepfake))
    ensures report[|report| - 1] == About(|input.weights|)
  {
    var summary := SummaryLines(input);
    var closing := ClosingLines(input);
    FaithfulConcat(summary, closing, input);
    summary + closing
  }

  /** The report opens with the summary, verdict and technical-details
      blocks in the order the handler prints them: the media kind, the
      file's basename, the request as given, the threshold, the verdict with
      the synthesised confidence and its bar, the configured models and
      their weights. No other verdict appears anywhere. */
  lemma ReportNamesItsInputs(input: ReportInput)
    ensures var report := BuildReport(input);
            var confidence := EffectiveConfidence(input.isDeepfake, input.threshold);
            && |report| >= 12
            && report[0] == Heading(input.media.kind)
            && report[1] == FileLine(Basename(input.media.path))
            && report[2] == MediaTypeLine(input.media.kind)
            && report[3] == ModelsUsed(input.requested)
            && report[4] == ThresholdLine(input.threshold)
            && report[5] == VerdictLine(input.isDeepfake)
            && report[6] == PipelineResult(BarCells(confidence), confidence)
            && report[7] == PipelineModels(Models(input.weights))
            && report[8] == ModelWeights(input.weights)
            && report[9] == AlgorithmLine
            && (forall i :: 0 <= i < |report| && report[i].VerdictLine? ==> report[i].isDeepfake == input.isDeepfake)
  {
    var summary := SummaryLines(input);
    assert BuildReport(input) == summary + ClosingLines(input);
    forall i | 0 <= i < 10
      ensures BuildReport(input)[i] == summary[i] && Faithful(summary[i], input)
    {
    }
  }

  /** Every recommendation in a report is the advice for its verdict. */
  lemma RecommendationFollowsVerdict(input: ReportInput)
    ensures forall i :: 0 <= i < |BuildReport(input)| && BuildReport(input)[i].Recommendation? ==>
              BuildReport(input)[i] == Recommendation(AdviceFor(input.isDeepfake))
  {
    var report := BuildReport(input);
    forall i | 0 <= i < |report| && report[i].Recommendation?
      ensures report[i] == Recommendation(AdviceFor(input.isDeepfake))
    {
      assert Faithful(report[i], input);
    }
  }

  /** The recommendation does not depend on anything but the verdict. */
  lemma RecommendationDependsOnVerdictOnly(a: ReportInput, b: ReportInput)
    requires a.isDeepfake == b.isDeepfake
    ensures forall i, j ::
              && 0 <= i < |BuildReport(a)| && 0 <= j < |BuildReport(b)|
              && BuildReport(a)[i].Recommendation? && BuildReport(b)[j].Recommendation?
              ==> BuildReport(a)[i] == BuildReport(b)[j]
  {
    RecommendationFollowsVerdict(a);
    RecommendationFollowsVerdict(b);
  }

  /** The collaborator's outcome: a verdict, or the message it raised. */
  datatype PipelineOutcome = Returned(isDeepfake: bool) | Raised(message: string)

  datatype DeepfakeError = NoMediaUploaded | NoModelSelected | Failed(message: string)

  datatype DeepfakeText = ErrorText(error: DeepfakeError) | ReportText(report: seq<ReportLine>)

  /** What the handler returns: an annotated-media path, never produced by
      this handler, and the text. */
  datatype DeepfakeResponse = DeepfakeResponse(annotated: Option<string>, text: DeepfakeText)

  /** The whole handler. `pipeline` stands for what the ensemble pipeline
      does with the chosen media and weights; it is consulted only once the
      media and the model selection have been accepted. */
  function DetectDeepfakes(
    fs: FileSystem,
    image: Option<string>,
    video: Option<string>,
    requested: seq<string>,
    threshold: real,
    frames: int,
    pipeline: PipelineOutcome): (r: DeepfakeResponse)
    ensures r.annotated.None?
    ensures r.text == ErrorText(NoMediaUploaded) <==> !Usable(fs, image) && !Usable(fs, video)
    ensures r.text == ErrorText(NoModelSelected) <==>
              && (Usable(fs, image) || Usable(fs, video))
              && ResnetInception !in requested && EfficientNet !in requested
    ensures r.text.ErrorText? && r.text.error.Failed? <==>
              && (Usable(fs, image) || Usable(fs, video))
              && (ResnetInception in requested || EfficientNet in requested)
              && pipeline.Raised?
    ensures r.text.ReportText? ==>
              && pipeline.Returned?
              && var media := SelectMedia(fs, image, video).value;
                 var weights := Configure(requested).weights;
                 && Total(weights) == 1.0
                 && r.text.report == BuildReport(ReportInput(media, requested, weights, threshold, frames, pipeline.isDeepfake))
  {
    match SelectMedia(fs, image, video)
    case None => DeepfakeResponse(None, ErrorText(NoMediaUploaded))
    case Some(media) =>
      match Configure(requested)
      case Rejected(_) => DeepfakeResponse(None, ErrorText(NoModelSelected))
      case Configured(weights) =>
        ConfiguredWeightsSumToOne(requested);
        match pipeline
        case Raised(message) => DeepfakeResponse(None, ErrorText(Failed(message)))
        case Returned(isDeepfake) =>
          var input := ReportInput(media, requested, weights, threshold, frames, isDeepfake);
          DeepfakeResponse(None, ReportText(BuildReport(input)))
  }

  /** A rejected selection stops the handler before the pipeline: its
      outcome cannot influence the response. */
  lemma NoModelsSkipsPipeline(
    fs: FileSystem, image: Option<string>, video: Option<string>,
    requested: seq<string>, threshold: real, frames: int,
    p1: PipelineOutcome, p2: PipelineOutcome)
    requires ResnetInception !in requested && EfficientNet !in requested
    ensures DetectDeepfakes(fs, image, video, requested, threshold, frames, p1) ==
            DetectDeepfakes(fs, image, video, requested, threshold, frames, p2)
  {
  }

  /** The model count in the closing text is the number of recognised
      models, which can differ from the length of the request: a request
      naming one recognised model twice and an unknown one is reported as
      one model. */
  lemma ClosingCountIsRecognisedModels(fs: FileSystem, image: string, threshold: real, frames: int, isDeepfake: bool)
    requires image != [] && fs.Exists(image)
    ensures var requested := [EfficientNet, EfficientNet, "xception"];
            var r := DetectDeepfakes(fs, Some(image), None, requested, threshold, frames, Returned(isDeepfake));
            && r.text.ReportText?
            && r.text.report[|r.text.report| - 1] == About(1)
            && |requested| == 3
  {
    var requested := [EfficientNet, EfficientNet, "xception"];
    ConfigureCases(requested);
    var weights := [Weighted(EfficientNet, 1.0)];
    assert Configure(requested) == Configured(weights);
    assert SelectMedia(fs, Some(image), None) == Some(Media(image, Image));
    var input := ReportInput(Media(image, Image), requested, weights, threshold, frames, isDeepfake);
    var report := BuildReport(input);
    assert report[|report| - 1] == About(1);
  }
}

=== FILE: faces.dfy ===
/** The face-detection request: validate the image, run the (opaque) detector,
    locate the annotated image it wrote and summarise the detections. */
module FaceDetection {
  import opened Wrappers
  import opened Paths
  import opened Files
  import opened Artifacts
  import opened Outcomes

  /** One detected face: its bounding box corners and its confidence. */
  datatype Detection = Detection(x1: int, y1: int, x2: int, y2: int, confidence: real)

  /** What running the detector did: the detections it returned together with
      the filesystem as it left it, or the message it raised. */
  datatype DetectRun = Detected(detections: seq<Detection>, after: FileSystem) | DetectRaised(message: string)

  datatype FaceError =
    | NoImage
    | ImageNotFound(path: string)
    | CreateFailed(model: string, message: string)
    | Failed(message: string)

  /** One block of the results text: the 1-based face number and its box. */
  datatype FaceEntry = FaceEntry(number: nat, detection: Detection)

  datatype FaceText = ErrorText(error: FaceError) | Summary(count: nat, faces: seq<FaceEntry>)

  datatype FaceResponse = FaceResponse(annotated: Option<string>, json: Option<string>, text: FaceText)

  /** `<root>/face_detection/<model>`: where the detector writes. */
  function DetectionFolder(model: string): (r: string)
    ensures model != [] && Sep !in model ==>
              r == OutputRoot + "/face_detection/" + model && r[|r| - 1] != Sep
  {
    var root := Join(OutputRoot, "face_detection");
    assert root == OutputRoot + "/face_detection";
    assert model != [] ==> model[0] in model && model[|model| - 1] in model;
    Join(root, model)
  }

  /** The detections file is `detections.json` inside the detection folder. */
  function JsonPath(model: string): (r: string)
    ensures Basename(r) == "detections.json"
    ensures model != [] && Sep !in model ==> Dirname(r) == DetectionFolder(model)
  {
    var folder := DetectionFolder(model);
    var name := "detections.json";
    assert Sep !in name;
    BasenameOfJoin(folder, name);
    assert model != [] && Sep !in model ==> Dirname(Join(folder, name)) == folder by {
      if model != [] && Sep !in model {
        JoinSplit(folder, name);
      }
    }
    Join(folder, name)
  }

  /** The markers the detector may put between the stem and the extension of
      the annotated image, in the order they are tried. */
  const AnnotatedMarkers: seq<string> := ["_annotated", "_detected", "_detection"]

  /** The names the detector may have given the annotated image, in the
      order they are tried. */
  function AnnotatedCandidates(stem: string, ext: string): (names: seq<string>)
    ensures |names| == |AnnotatedMarkers| == 3
    ensures forall i :: 0 <= i < |names| ==> |names[i]| > |stem| + |ext|
  {
    [ stem + AnnotatedMarkers[0] + ext,
      stem + AnnotatedMarkers[1] + ext,
      stem + AnnotatedMarkers[2] + ext ]
  }

  /** Each candidate is the stem, one marker, and the extension, tried in
      the order of the markers. */
  lemma CandidatesFollowMarkers(stem: string, ext: string)
    ensures var names := AnnotatedCandidates(stem, ext);
            forall i :: 0 <= i < |names| ==>
              && names[i][..|stem|] == stem
              && names[i][|stem|..|names[i]| - |ext|] == AnnotatedMarkers[i]
              && names[i][|names[i]| - |ext|..] == ext
  {
  }

  /** The per-face blocks, numbered from `first` on in detection order. */
  function Entries(detections: seq<Detection>, first: nat): (entries: seq<FaceEntry>)
    ensures |entries| == |detections|
    ensures forall i :: 0 <= i < |entries| ==> entries[i] == FaceEntry(first + i, detections[i])
  {
    if detections == [] then []
    else [FaceEntry(first, detections[0])] + Entries(detections[1..], first + 1)
  }

  /** The annotated image is looked up under the candidate names derived from
      the input's basename, in the detection folder. */
  function FindAnnotated(fs: FileSystem, image: string, model: string): (r: Option<string>)
    ensures r.Some? ==> fs.Exists(r.value) && r.value != []
  {
    var split := SplitExt(Basename(image));
    var names := AnnotatedCandidates(split.0, split.1);
    var folder := DetectionFolder(model);
    var k := FirstExistingIndex(fs, folder, names);
    assert k < |names| ==> |Join(folder, names[k])| >= |names[k]| > 0;
    FirstExisting(fs, folder, names)
  }

  /** The whole handler. Checks run in order: missing image, image not on
      disk, detector creation; then the detector runs and the outputs it left
      behind are reported only when they exist. */
  function DetectFaces(fs: FileSystem, image: Option<string>, model: string, create: CreateOutcome, run: DetectRun): (r: FaceResponse)
    ensures image.None? || image.value == [] ==> r == FaceResponse(None, None, ErrorText(NoImage))
    ensures image.Some? && image.value != [] && !fs.Exists(image.value) ==>
              r == FaceResponse(None, None, ErrorText(ImageNotFound(image.value)))
    ensures image.Some? && image.value != [] && fs.Exists(image.value) && create.CreateRaised? ==>
              r == FaceResponse(None, None, ErrorText(CreateFailed(model, create.message)))
    ensures r.annotated.Some? ==> run.Detected? && run.after.Exists(r.annotated.value)
    ensures r.json.Some? ==> run.Detected? && run.after.Exists(r.json.value) && r.json.value == JsonPath(model)
    ensures image.Some? && image.value != [] && fs.Exists(image.value) && create.Created? && run.DetectRaised? ==>
              r == FaceResponse(None, None, ErrorText(Failed(run.message)))
    ensures image.Some? && image.value != [] && fs.Exists(image.value) && create.Created? && run.Detected? ==>
              && r.text == Summary(|run.detections|, Entries(run.detections, 1))
              && (r.json.Some? <==> run.after.Exists(JsonPath(model)))
    ensures r.text.Summary? ==>
              && image.Some? && fs.Exists(image.value) && create.Created? && run.Detected?
              && r.text.count == |run.detections| == |r.text.faces|
              && forall i :: 0 <= i < |r.text.faces| ==> r.text.faces[i] == FaceEntry(i + 1, run.detections[i])
  {
    if image.None? || image.value == [] then FaceResponse(None, None, ErrorText(NoImage))
    else if !fs.Exists(image.value) then FaceResponse(None, None, ErrorText(ImageNotFound(image.value)))
    else if create.CreateRaised? then FaceResponse(None, None, ErrorText(CreateFailed(model, create.message)))
    else
      match run
      case DetectRaised(message) => FaceResponse(None, None, ErrorText(Failed(message)))
      case Detected(detections, after) =>
        var annotated := FindAnnotated(after, image.value, model);
        var json := JsonPath(model);
        FaceResponse(
          if annotated.Some? && annotated.value != [] && after.Exists(annotated.value) then annotated else None,
          if after.Exists(json) then Some(json) else None,
          Summary(|detections|, Entries(detections, 1)))
  }

  /** The annotated path returned is the first candidate that exists, and
      there is none exactly when no candidate exists. */
  lemma AnnotatedIsFirstExistingCandidate(fs: FileSystem, image: string, model: string, detections: seq<Detection>, after: FileSystem)
    requires image != [] && fs.Exists(image)
    ensures var r := DetectFaces(fs, Some(image), model, Created, Detected(detections, after));
            var split := SplitExt(Basename(image));
            var names := AnnotatedCandidates(split.0, split.1);
            var folder := DetectionFolder(model);
            && (r.annotated.None? <==> forall i :: 0 <= i < 3 ==> !after.Exists(Join(folder, names[i])))
            && (r.annotated.Some? ==>
                  var k := FirstExistingIndex(after, folder, names);
                  k < 3 && r.annotated.value == Join(folder, names[k]))
  {
    var r := DetectFaces(fs, Some(image), model, Created, Detected(detections, after));
    assert r.annotated == FindAnnotated(after, image, model);
  }
}

=== FILE: files.dfy ===
/** The filesystem as the handlers observe it (`os.path.exists` and
    `glob.glob`), and the output root every handler writes under. */
module Files {
  import opened Paths

  /** Root of every output folder (`self.output_dir`). */
  const OutputRoot: string := "gradio_output"

  const Star: char := '*'

  /** The existing paths, in the order a directory listing returns them; that
      order decides which match `glob` yields first. */
  datatype FileSystem = FileSystem(paths: seq<string>) {
    predicate Exists(p: string) {
      p in paths
    }
  }

  /** `fnmatch` restricted to `*`, which matches any run of characters;
      every other character matches itself. */
  predicate Matches(pattern: string, name: string)
    decreases |pattern| + |name|
  {
    if |pattern| == 0 then |name| == 0
    else if pattern[0] == Star then
      Matches(pattern[1..], name) || (|name| > 0 && Matches(pattern, name[1..]))
    else |name| > 0 && name[0] == pattern[0] && Matches(pattern[1..], name[1..])
  }

  /** A pattern without `*` matches exactly itself. */
  lemma {:induction false} LiteralMatches(pattern: string, name: string)
    requires Star !in pattern
    ensures Matches(pattern, name) <==> name == pattern
  {
    if |pattern| > 0 && |name| > 0 {
      assert pattern[1..] == [] || pattern[1..][0] in pattern;
      assert Star !in pattern[1..] by {
        forall c | c in pattern[1..] ensures c != Star {
          var i :| 0 <= i < |pattern[1..]| && pattern[1..][i] == c;
          assert pattern[i + 1] == c;
        }
      }
      LiteralMatches(pattern[1..], name[1..]);
      if name == pattern {
        assert name[1..] == pattern[1..];
      } else if name[0] == pattern[0] {
        assert name == [name[0]] + name[1..];
        assert pattern == [pattern[0]] + pattern[1..];
      }
    } else if |pattern| > 0 {
      assert pattern[0] in pattern;
    }
  }

  /** `*` followed by a literal suffix matches exactly the names that end
      with that suffix. */
  lemma {:induction false} StarSuffixMatches(suffix: string, name: string)
    requires Star !in suffix
    ensures Matches([Star] + suffix, name) <==>
              |name| >= |suffix| && name[|name| - |suffix|..] == suffix
    decreases |name|
  {
    var pattern := [Star] + suffix;
    assert pattern[1..] == suffix;
    LiteralMatches(suffix, name);
    if |name| > 0 {
      StarSuffixMatches(suffix, name[1..]);
      if |name| - 1 >= |suffix| {
        assert name[1..][|name| - 1 - |suffix|..] == name[|name| - |suffix|..];
      }
    }
  }

  /** A literal prefix, one `*` and a literal suffix match exactly the names
      that start with the prefix and end with the suffix, without overlap. */
  lemma {:induction false} PrefixStarSuffixMatches(prefix: string, suffix: string, name: string)
    requires Star !in prefix && Star !in suffix
    ensures Matches(prefix + [Star] + suffix, name) <==>
              && |name| >= |prefix| + |suffix|
              && name[..|prefix|] == prefix
              && name[|name| - |suffix|..] == suffix
    decreases |prefix|
  {
    var pattern := prefix + [Star] + suffix;
    if |prefix| == 0 {
      assert pattern == [Star] + suffix;
      StarSuffixMatches(suffix, name);
    } else {
      assert pattern[0] == prefix[0];
      assert prefix[0] in prefix;
      assert pattern[1..] == prefix[1..] + [Star] + suffix;
      assert Star !in prefix[1..] by {
        forall c | c in prefix[1..] ensures c != Star {
          var i :| 0 <= i < |prefix[1..]| && prefix[1..][i] == c;
          assert prefix[i + 1] == c;
        }
      }
      if |name| > 0 {
        PrefixStarSuffixMatches(prefix[1..], suffix, name[1..]);
        if |name| >= |prefix| + |suffix| {
          assert name[1..][|name| - 1 - |suffix|..] == name[|name| - |suffix|..];
          assert name[..|prefix|] == [name[0]] + name[1..][..|prefix| - 1];
          assert prefix == [prefix[0]] + prefix[1..];
        }
      }
    }
  }

  /** `p` names an entry directly inside `dir` whose name matches `pattern`. */
  predicate InDirMatching(dir: string, pattern: string, p: string) {
    var prefix := DirPrefix(dir);
    && |prefix| < |p|
    && p[..|prefix|] == prefix
    && Sep !in p[|prefix|..]
    && Matches(pattern, p[|prefix|..])
  }

  /** The members of `paths` that lie in `dir` and match `pattern`, in
      listing order. */
  function Filter(paths: seq<string>, dir: string, pattern: string): (r: seq<string>)
    ensures forall p :: p in r <==> p in paths && InDirMatching(dir, pattern, p)
  {
    if paths == [] then []
    else
      var rest := Filter(paths[1..], dir, pattern);
      if InDirMatching(dir, pattern, paths[0]) then [paths[0]] + rest else rest
  }

  /** The first element kept is no later in the listing than any matching
      entry. */
  lemma {:induction false} FilterKeepsFirst(paths: seq<string>, dir: string, pattern: string, j: nat)
    requires j < |paths| && InDirMatching(dir, pattern, paths[j])
    ensures Filter(paths, dir, pattern) != []
    ensures Filter(paths, dir, pattern)[0] in paths[..j + 1]
  {
    if !InDirMatching(dir, pattern, paths[0]) {
      FilterKeepsFirst(paths[1..], dir, pattern, j - 1);
      assert paths[..j + 1] == [paths[0]] + paths[1..][..j];
    }
  }

  lemma FilterOrder(paths: seq<string>, dir: string, pattern: string)
    ensures forall j :: 0 <= j < |paths| && InDirMatching(dir, pattern, paths[j]) ==>
              Filter(paths, dir, pattern) != [] && Filter(paths, dir, pattern)[0] in paths[..j + 1]
  {
    forall j | 0 <= j < |paths| && InDirMatching(dir, pattern, paths[j])
      ensures Filter(paths, dir, pattern) != [] && Filter(paths, dir, pattern)[0] in paths[..j + 1]
    {
      FilterKeepsFirst(paths, dir, pattern, j);
    }
  }

  /** `glob.glob(join(dir, pattern))` for a literal directory and a pattern
      confined to one path component: the matching entries of `dir`, the
      first of them the earliest in the listing. */
  function Glob(fs: FileSystem, dir: string, pattern: string): (r: seq<string>)
    ensures forall p :: p in r <==> fs.Exists(p) && InDirMatching(dir, pattern, p)
    ensures forall j :: 0 <= j < |fs.paths| && InDirMatching(dir, pattern, fs.paths[j]) ==>
              r != [] && r[0] in fs.paths[..j + 1]
  {
    FilterOrder(fs.paths, dir, pattern);
    Filter(fs.paths, dir, pattern)
  }

  /** A pattern without `*` finds the joined path exactly when it exists. */
  lemma GlobLiteral(fs: FileSystem, dir: string, name: string)
    requires name != [] && Star !in name && Sep !in name
    ensures Glob(fs, dir, name) != [] <==> fs.Exists(Join(dir, name))
    ensures Glob(fs, dir, name) != [] ==> Glob(fs, dir, name)[0] == Join(dir, name)
  {
    assert name[0] in name;
    JoinRelative(dir, name);
    var prefix := DirPrefix(dir);
    forall p | InDirMatching(dir, name, p)
      ensures p == Join(dir, name)
    {
      LiteralMatches(name, p[|prefix|..]);
      assert p == p[..|prefix|] + p[|prefix|..];
    }
    var q := Join(dir, name);
    assert q[..|prefix|] == prefix;
    assert q[|prefix|..] == name;
    LiteralMatches(name, name);
    assert InDirMatching(dir, name, q);
    var r := Glob(fs, dir, name);
    if r != [] {
      assert r[0] in r;
    }
  }
}

=== FILE: outcomes.dfy ===
/** What a collaborator factory (`FaceDetector.create`,
    `FaceReenactor.create`) did: produced an instance, or raised. */
module Outcomes {

  datatype CreateOutcome = Created | CreateRaised(message: string)
}

=== FILE: paths.dfy ===
/** The POSIX path helpers the handlers use to build output locations and to
    extract file stems: `os.path.join`, `basename`, `dirname` and `splitext`,
    with the semantics of Python's `posixpath`. */
module Paths {

  const Sep: char := '/'
  const ExtSep: char := '.'

  /** Index of the last occurrence of `c` in `s`, or -1 when there is none
      (`str.rfind`). */
  function LastIndexOf(s: string, c: char): (r: int)
    ensures -1 <= r < |s|
    ensures 0 <= r ==> s[r] == c
    ensures forall j :: r < j < |s| ==> s[j] != c
    ensures r == -1 <==> c !in s
  {
    if |s| == 0 then -1
    else if s[|s| - 1] == c then |s| - 1
    else LastIndexOf(s[..|s| - 1], c)
  }

  /** `os.path.join(a, b)`: an absolute `b` discards `a`; otherwise a separator
      is inserted unless `a` is empty or already ends with one. */
  function Join(a: string, b: string): (r: string)
    ensures |b| <= |r|
  {
    if |b| > 0 && b[0] == Sep then b
    else if |a| == 0 || a[|a| - 1] == Sep then a + b
    else a + [Sep] + b
  }

  /** The shape of a joined path: it always ends with the name; an absolute
      name is the whole result; a relative name follows the directory, with
      one separator inserted exactly when the directory is non-empty and does
      not already end with one. */
  lemma JoinShape(a: string, b: string)
    ensures var r := Join(a, b);
            && |b| <= |r| && r[|r| - |b|..] == b
            && (|b| > 0 && b[0] == Sep ==> r == b)
            && ((|b| == 0 || b[0] != Sep) ==> r[..|a|] == a)
            && ((|b| == 0 || b[0] != Sep) && (a == [] || a[|a| - 1] == Sep) ==> |r| == |a| + |b|)
            && ((|b| == 0 || b[0] != Sep) && a != [] && a[|a| - 1] != Sep ==>
                  |r| == |a| + 1 + |b| && r[|a|] == Sep)
  {
  }

  /** The text `Join(dir, name)` puts in front of a relative `name`. */
  function DirPrefix(dir: string): (p: string)
    ensures p == [] || p[|p| - 1] == Sep
  {
    if |dir| == 0 || dir[|dir| - 1] == Sep then dir else dir + [Sep]
  }

  /** Joining a relative name only appends it to the directory prefix. */
  lemma JoinRelative(dir: string, name: string)
    requires name == [] || name[0] != Sep
    ensures Join(dir, name) == DirPrefix(dir) + name
  {
  }

  /** `os.path.basename`: everything after the last separator. */
  function Basename(p: string): (r: string)
    ensures Sep !in r
    ensures |r| <= |p| && p[|p| - |r|..] == r
  {
    p[LastIndexOf(p, Sep) + 1..]
  }

  /** The basename is the longest separator-free suffix: whatever precedes
      it, if anything, is a separator. */
  lemma BasenameIsLastComponent(p: string)
    ensures var r := Basename(p);
            |r| < |p| ==> p[|p| - |r| - 1] == Sep
  {
  }

  predicate AllSeps(s: string) {
    forall k :: 0 <= k < |s| ==> s[k] == Sep
  }

  /** Drops trailing separators (`str.rstrip('/')`). */
  function StripTrailingSeps(s: string): (r: string)
    ensures |r| <= |s| && s[..|r|] == r
    ensures r == [] || r[|r| - 1] != Sep
    ensures forall k :: |r| <= k < |s| ==> s[k] == Sep
  {
    if |s| > 0 && s[|s| - 1] == Sep then StripTrailingSeps(s[..|s| - 1]) else s
  }

  /** `os.path.dirname`: everything up to the last separator, with trailing
      separators removed unless the head consists of separators only. */
  function Dirname(p: string): (r: string)
    ensures |r| <= |p| && p[..|r|] == r
    ensures |r| <= LastIndexOf(p, Sep) + 1
    ensures r == [] <==> Sep !in p
    ensures forall k :: |r| <= k <= LastIndexOf(p, Sep) ==> p[k] == Sep
    ensures r == [] || r[|r| - 1] != Sep || AllSeps(r)
    ensures AllSeps(p[..LastIndexOf(p, Sep) + 1]) ==> r == p[..LastIndexOf(p, Sep) + 1]
  {
    var last := LastIndexOf(p, Sep);
    var head := p[..last + 1];
    if head != [] && !AllSeps(head) then
      StripTrailingSeps(head)
    else
      assert head != [] ==> head[last] == Sep;
      head
  }

  /** The last-separator search finds the separator a prefix ends with when
      the rest is separator-free. */
  lemma LastSepOfConcat(x: string, f: string)
    requires x == [] || x[|x| - 1] == Sep
    requires Sep !in f
    ensures LastIndexOf(x + f, Sep) == |x| - 1
  {
    var s := x + f;
    var r := LastIndexOf(s, Sep);
    if x == [] {
      assert s == f;
    } else {
      assert s[|x| - 1] == Sep;
    }
  }

  /** `dirname` of a directory, a separator and a name without separators
      is the directory, when the directory does not end with a separator. */
  lemma DirnameOfSepName(dir: string, name: string)
    requires Sep !in name
    requires dir != [] && dir[|dir| - 1] != Sep
    ensures Dirname(dir + [Sep] + name) == dir
  {
    var x := dir + [Sep];
    var p := x + name;
    LastSepOfConcat(x, name);
    var head := p[..|x|];
    assert head == x;
    assert head[|dir| - 1] != Sep;
    assert !AllSeps(head);
    assert x[..|x| - 1] == dir;
    assert StripTrailingSeps(x) == StripTrailingSeps(dir);
  }

  /** `basename` and `dirname` take a joined path back apart: the name
      comes back from `basename`, the directory from `dirname`. */
  lemma JoinSplit(dir: string, name: string)
    requires name != [] && Sep !in name
    requires dir != [] && dir[|dir| - 1] != Sep
    ensures Basename(Join(dir, name)) == name
    ensures Dirname(Join(dir, name)) == dir
  {
    var x := dir + [Sep];
    assert name[0] in name;
    assert Join(dir, name) == x + name;
    LastSepOfConcat(x, name);
    assert (x + name)[|x|..] == name;
    DirnameOfSepName(dir, name);
  }

  /** The last component of any directory joined with a plain name is that
      name. */
  lemma BasenameOfJoin(dir: string, name: string)
    requires name != [] && Sep !in name
    ensures Basename(Join(dir, name)) == name
  {
    assert name[0] in name;
    JoinRelative(dir, name);
    LastSepOfConcat(DirPrefix(dir), name);
    assert (DirPrefix(dir) + name)[|DirPrefix(dir)|..] == name;
  }

  predicate AllDots(s: string) {
    forall k :: 0 <= k < |s| ==> s[k] == ExtSep
  }

  /** `os.path.splitext`: the extension starts at the last dot of the last
      component, unless only dots precede it in that component (so
      `.bashrc` has no extension). */
  function SplitExt(p: string): (r: (string, string))
    ensures r.0 + r.1 == p
    ensures r.1 == [] || (r.1[0] == ExtSep && ExtSep !in r.1[1..] && Sep !in r.1)
  {
    var sep := LastIndexOf(p, Sep);
    var dot := LastIndexOf(p, ExtSep);
    if dot > sep && !AllDots(p[sep + 1..dot]) then
      (p[..dot], p[dot..])
    else (p, [])
  }

  /** A non-dot before the last dot of the last component is a witness
      that the component has a dot preceded by a non-dot. */
  lemma ExtensionWitness(p: string, sep: int, dot: int)
    requires -1 <= sep < dot < |p| && p[dot] == ExtSep
    requires !AllDots(p[sep + 1..dot])
    ensures exists i, j :: sep < j < i < |p| && p[j] != ExtSep && p[i] == ExtSep
  {
    var k :| 0 <= k < |p[sep + 1..dot]| && p[sep + 1..dot][k] != ExtSep;
    assert p[sep + 1 + k] != ExtSep;
  }

  /** When every dot of the last component is at or before `dot` and only
      dots precede `dot` there, no dot of the component follows a non-dot. */
  lemma NoExtensionWitness(p: string, sep: int, dot: int)
    requires -1 <= sep < |p| && -1 <= dot < |p|
    requires forall j :: dot < j < |p| ==> p[j] != ExtSep
    requires dot > sep ==> AllDots(p[sep + 1..dot])
    ensures !exists i, j :: sep < j < i < |p| && p[j] != ExtSep && p[i] == ExtSep
  {
    forall i, j | sep < j < i < |p| && p[i] == ExtSep
      ensures p[j] == ExtSep
    {
      assert i <= dot;
      assert p[sep + 1..dot][j - sep - 1] == p[j];
    }
  }

  /** When `splitext` finds an extension: exactly when the last component
      has a dot preceded by a non-dot, and then the extension starts at the
      last dot. A name without dots, or a dot-file such as `.bashrc`, keeps
      its whole text as the root. */
  lemma SplitExtCases(p: string)
    ensures SplitExt(p).1 != [] ==> |SplitExt(p).0| == LastIndexOf(p, ExtSep)
    ensures SplitExt(p).1 == [] <==>
              !exists i, j :: LastIndexOf(p, Sep) < j < i < |p| && p[j] != ExtSep && p[i] == ExtSep
  {
    var sep := LastIndexOf(p, Sep);
    var dot := LastIndexOf(p, ExtSep);
    if dot > sep && !AllDots(p[sep + 1..dot]) {
      assert SplitExt(p) == (p[..dot], p[dot..]);
      ExtensionWitness(p, sep, dot);
    } else {
      assert SplitExt(p) == (p, []);
      NoExtensionWitness(p, sep, dot);
    }
  }

  /** A path without dots has no extension. */
  lemma NoDotNoExtension(p: string)
    requires ExtSep !in p
    ensures SplitExt(p) == (p, [])
  {
    SplitExtCases(p);
  }

  /** A dot-file whose only dot is the leading one (`.bashrc`) has no
      extension: the leading dot stays in the root. */
  lemma DotFileKeepsName(name: string)
    requires Sep !in name
    requires |name| > 0 && name[0] == ExtSep && ExtSep !in name[1..]
    ensures SplitExt(name) == (name, [])
  {
    SplitExtCases(name);
    assert LastIndexOf(name, Sep) == -1;
    forall i | 0 < i < |name|
      ensures name[i] != ExtSep
    {
      assert name[1..][i - 1] == name[i];
    }
  }

  /** The stem of a path, as `splitext(basename(p))[0]`. */
  function Stem(p: string): (r: string)
    ensures Sep !in r
    ensures |r| <= |Basename(p)| && Basename(p)[..|r|] == r
  {
    SplitExt(Basename(p)).0
  }

  /** The stem is the whole last component exactly when that component has
      no dot preceded by a non-dot (no dot at all, or a dot-file such as
      `.bashrc`); otherwise it ends just before the last dot. */
  lemma StemCases(p: string)
    ensures var b := Basename(p);
            Stem(p) == b <==> !exists i, j :: 0 <= j < i < |b| && b[j] != ExtSep && b[i] == ExtSep
    ensures Stem(p) != Basename(p) ==> |Stem(p)| == LastIndexOf(Basename(p), ExtSep)
  {
    var b := Basename(p);
    assert LastIndexOf(b, Sep) == -1;
    SplitExtCases(b);
    var r := SplitExt(b);
    assert Stem(p) == r.0;
    assert Stem(p) == b <==> r.1 == [];
  }

  /** A name with one extension is split at its only dot, provided the part
      before it is not made of dots alone. */
  lemma {:induction false} SplitExtOfName(stem: string, ext: string)
    requires Sep !in stem && Sep !in ext && ExtSep !in ext
    requires exists k :: 0 <= k < |stem| && stem[k] != ExtSep
    ensures SplitExt(stem + [ExtSep] + ext) == (stem, [ExtSep] + ext)
  {
    var p := stem + [ExtSep] + ext;
    var dot := LastIndexOf(p, ExtSep);
    assert p[|stem|] == ExtSep;
    assert dot == |stem|;
    var sep := LastIndexOf(p, Sep);
    assert sep == -1;
    assert p[..dot] == stem;
    var k :| 0 <= k < |stem| && stem[k] != ExtSep;
    assert p[sep + 1..dot][k] == stem[k];
    assert !AllDots(p[sep + 1..dot]);
    assert p[dot..] == [ExtSep] + ext;
  }

  /** The stem of `dir/stem.ext` is `stem`: the rule the handlers rely on when
      they derive output and artifact names from an uploaded file. */
  lemma StemOfJoinedFile(dir: string, stem: string, ext: string)
    requires Sep !in stem && Sep !in ext && ExtSep !in ext
    requires exists k :: 0 <= k < |stem| && stem[k] != ExtSep
    ensures Stem(Join(dir, stem + [ExtSep] + ext)) == stem
  {
    var name := stem + [ExtSep] + ext;
    var k :| 0 <= k < |stem| && stem[k] != ExtSep;
    assert name[0] == stem[0] && stem[0] in stem;
    BasenameOfJoin(dir, name);
    SplitExtOfName(stem, ext);
  }
}

=== FILE: presentation.dfy ===
/** The numeric presentation helpers of the deepfake report: the confidence
    synthesised from the threshold, the fixed-width confidence bar and the
    qualitative risk tier. */
module Presentation {

  /** The pipeline reports only a verdict, so the displayed confidence is
      derived from the threshold: the threshold itself for a deepfake verdict,
      its complement for an authentic one. */
  function EffectiveConfidence(isDeepfake: bool, threshold: real): (c: real)
    ensures 0.0 <= threshold <= 1.0 ==> 0.0 <= c <= 1.0
    ensures threshold == 0.5 ==> c == 0.5
  {
    if isDeepfake then threshold else 1.0 - threshold
  }

  /** The two verdicts split the unit between them, and the deepfake verdict
      reports the threshold unchanged. */
  lemma EffectiveConfidenceComplement(threshold: real)
    ensures EffectiveConfidence(true, threshold) == threshold
    ensures EffectiveConfidence(true, threshold) + EffectiveConfidence(false, threshold) == 1.0
  {
  }

  const BarWidth: int := 20
  const FullCell: char := '█'
  const EmptyCell: char := '░'

  /** Python's `int()` on a float: the integer part, truncating toward zero. */
  function TruncToInt(x: real): (n: int)
    ensures 0.0 <= x ==> n as real <= x < n as real + 1.0
    ensures x < 0.0 ==> n as real - 1.0 < x <= n as real
  {
    if x >= 0.0 then x.Floor else -((-x).Floor)
  }

  /** `c * n` for a character `c` and an int `n`: empty when `n` is not
      positive. */
  function Repeat(c: char, n: int): (s: string)
    ensures |s| == if n > 0 then n else 0
    ensures forall i :: 0 <= i < |s| ==> s[i] == c
    decreases n
  {
    if n <= 0 then [] else [c] + Repeat(c, n - 1)
  }

  /** Number of full cells: `int(confidence * width)`. */
  function FilledCells(confidence: real): int {
    TruncToInt(confidence * BarWidth as real)
  }

  /** The cells of the confidence bar: `filled` full cells, then the rest of
      the width empty. For a confidence in [0, 1] there are exactly twenty
      cells and cell `i` is full exactly when the confidence covers the whole
      of that cell. */
  function BarCells(confidence: real): (bar: string)
    ensures 0.0 <= confidence <= 1.0 ==> |bar| == BarWidth
    ensures 0.0 <= confidence <= 1.0 ==>
              forall i :: 0 <= i < |bar| ==>
                (bar[i] == FullCell <==> (i + 1) as real <= confidence * BarWidth as real)
    ensures 0.0 <= confidence <= 1.0 ==>
              forall i :: 0 <= i < |bar| ==> bar[i] == FullCell || bar[i] == EmptyCell
  {
    var filled := FilledCells(confidence);
    Repeat(FullCell, filled) + Repeat(EmptyCell, BarWidth - filled)
  }

  /** For a confidence in [0, 1] the number of full cells is the floor of
      twenty times it, between 0 and 20; the ends of the range give an empty
      and a full bar. */
  lemma FilledCellsInRange(confidence: real)
    requires 0.0 <= confidence <= 1.0
    ensures FilledCells(confidence) == (confidence * 20.0).Floor
    ensures 0 <= FilledCells(confidence) <= BarWidth
    ensures confidence == 1.0 ==> BarCells(confidence) == Repeat(FullCell, BarWidth)
    ensures confidence == 0.0 ==> BarCells(confidence) == Repeat(EmptyCell, BarWidth)
  {
  }

  /** Outside [0, 1] the bar does not keep its width: a confidence above one
      overfills it, a negative one overextends the empty part. */
  lemma BarWidthOutsideUnit()
    ensures |BarCells(1.5)| == 30
    ensures |BarCells(-0.5)| == 30
  {
    assert FilledCells(1.5) == 30;
    assert FilledCells(-0.5) == -10;
  }

  /** The tiers of `get_risk_level`: alarm tiers for a deepfake verdict,
      reassurance tiers for an authentic one. */
  datatype RiskLevel = HighRisk | MediumRisk | LowRisk | VeryConfident | Confident | Uncertain {

    predicate IsAlarm() {
      HighRisk? || MediumRisk? || LowRisk?
    }

    /** 2 for the top tier, 1 for the middle, 0 for the bottom. */
    function Rank(): nat {
      match this
      case HighRisk => 2
      case VeryConfident => 2
      case MediumRisk => 1
      case Confident => 1
      case LowRisk => 0
      case Uncertain => 0
    }
  }

  const HighCutoff: real := 0.8
  const MediumCutoff: real := 0.6

  /** The risk tier for a confidence and a verdict, with cut-offs 0.8 and
      0.6 and the verdict choosing the family of labels. */
  function RiskLevelOf(confidence: real, isDeepfake: bool): (r: RiskLevel)
    ensures r.IsAlarm() <==> isDeepfake
    ensures r.Rank() == 2 <==> confidence >= HighCutoff
    ensures r.Rank() == 1 <==> MediumCutoff <= confidence < HighCutoff
  {
    if isDeepfake then
      if confidence >= HighCutoff then HighRisk
      else if confidence >= MediumCutoff then MediumRisk
      else LowRisk
    else
      if confidence >= HighCutoff then VeryConfident
      else if confidence >= MediumCutoff then Confident
      else Uncertain
  }

  /** A higher confidence never gives a lower tier. */
  lemma RiskLevelMonotone(c1: real, c2: real, isDeepfake: bool)
    requires c1 <= c2
    ensures RiskLevelOf(c1, isDeepfake).Rank() <= RiskLevelOf(c2, isDeepfake).Rank()
  {
  }

  /** A deepfake verdict at threshold 0.8 shows confidence 0.8 and the
      highest tier. */
  lemma HighThresholdDeepfakeIsHighRisk()
    ensures EffectiveConfidence(true, 0.8) == 0.8
    ensures RiskLevelOf(EffectiveConfidence(true, 0.8), true) == HighRisk
  {
  }
}

=== FILE: reenact.dfy ===
/** The face-reenactment request: derive the output path from the source
    image, run the (opaque) reenactor, then find the comparison video it wrote
    as a side effect. Every failure collapses to an empty response. */
module Reenactment {
  import opened Wrappers
  import opened Paths
  import opened Files
  import opened Artifacts
  import opened Outcomes

  /** What running the reenactor did: the path it returned together with the
      filesystem as it left it, or the message it raised. */
  datatype ReenactRun = Reenacted(resultPath: string, after: FileSystem) | ReenactRaised(message: string)

  datatype ReenactResponse = ReenactResponse(video: Option<string>, comparison: Option<string>)

  const ReenactedSuffix: string := "_reenacted"
  const ComparisonPrefix: string := "comparison_"
  const VideoExt: string := ".mp4"

  /** The last component of the output path is a plain, non-empty name. */
  lemma ReenactedNameIsPlain(source: string)
    ensures var name := Stem(source) + ReenactedSuffix;
            name != [] && Sep !in name
  {
    assert Sep !in ReenactedSuffix;
  }

  /** `<root>/face_reenactment/<model>/<stem>_reenacted`: the path handed to
      the reenactor, which is also the first directory searched. */
  function OutputPath(model: string, source: string): (r: string)
    ensures Basename(r) == Stem(source) + ReenactedSuffix
  {
    ReenactedNameIsPlain(source);
    BasenameOfJoin(Join(Join(OutputRoot, "face_reenactment"), model), Stem(source) + ReenactedSuffix);
    Join(Join(Join(OutputRoot, "face_reenactment"), model), Stem(source) + ReenactedSuffix)
  }

  /** The comparison-video names, most specific first. */
  function ComparisonPatterns(sourceStem: string, drivingStem: string): (patterns: seq<string>)
    ensures |patterns| == 3
  {
    [ ComparisonPrefix + sourceStem + "_by_" + drivingStem + VideoExt,
      ComparisonPrefix + sourceStem + "_by_" + [Star] + VideoExt,
      ComparisonPrefix + [Star] + VideoExt ]
  }

  /** Every pattern names a comparison video: `comparison_…` ending in
      `.mp4`. */
  lemma PatternsNameComparisonVideos(sourceStem: string, drivingStem: string)
    ensures var patterns := ComparisonPatterns(sourceStem, drivingStem);
            forall i :: 0 <= i < 3 ==>
              && |patterns[i]| >= |ComparisonPrefix| + |VideoExt|
              && patterns[i][..|ComparisonPrefix|] == ComparisonPrefix
              && patterns[i][|patterns[i]| - |VideoExt|..] == VideoExt
  {
  }

  /** The model folder of the reenactment outputs. */
  lemma ModelFolder(model: string)
    requires model != [] && Sep !in model
    ensures var dir := Join(Join(OutputRoot, "face_reenactment"), model);
            && dir == OutputRoot + "/face_reenactment/" + model
            && dir[|dir| - 1] != Sep
  {
    var root := OutputRoot + "/face_reenactment";
    assert Join(OutputRoot, "face_reenactment") == root;
    assert model[0] in model;
    assert model[|model| - 1] in model;
    assert root + "/" + model == OutputRoot + "/face_reenactment/" + model;
  }

  /** For a plain model name the output path has the documented layout, and
      splitting it gives back the model folder and `<stem>_reenacted`. */
  lemma OutputPathLayout(model: string, source: string)
    requires model != [] && Sep !in model
    ensures OutputPath(model, source) ==
              OutputRoot + "/face_reenactment/" + model + "/" + Stem(source) + ReenactedSuffix
    ensures Basename(OutputPath(model, source)) == Stem(source) + ReenactedSuffix
    ensures Dirname(OutputPath(model, source)) == OutputRoot + "/face_reenactment/" + model
  {
    ModelFolder(model);
    var dir := Join(Join(OutputRoot, "face_reenactment"), model);
    var name := Stem(source) + ReenactedSuffix;
    ReenactedNameIsPlain(source);
    JoinSplit(dir, name);
    SlashJoin(dir, Stem(source), ReenactedSuffix);
  }

  /** Joining onto a folder that does not end in `/` inserts exactly one. */
  lemma SlashJoin(dir: string, stem: string, suffix: string)
    requires dir != [] && dir[|dir| - 1] != Sep
    requires stem + suffix != [] && Sep !in stem + suffix
    ensures Join(dir, stem + suffix) == dir + "/" + stem + suffix
  {
    var name := stem + suffix;
    assert name[0] in name;
    assert dir + "/" + stem + suffix == dir + [Sep] + name;
  }

  /** The whole handler. The comparison video is looked for under the three
      patterns in the output path, and only when none matches there, in the
      directory of the path the reenactor returned. */
  function ReenactFace(source: Option<string>, driving: Option<string>, model: string, create: CreateOutcome, run: ReenactRun): (r: ReenactResponse)
    ensures create.CreateRaised? || source.None? || driving.None? || run.ReenactRaised? ==>
              r == ReenactResponse(None, None)
    ensures r.video.Some? ==> run.Reenacted? && r.video.value == run.resultPath
    ensures r.comparison.Some? ==> run.Reenacted? && run.after.Exists(r.comparison.value)
    ensures create.Created? && source.Some? && driving.Some? && run.Reenacted? ==>
              && r.video == Some(run.resultPath)
              && var patterns := ComparisonPatterns(Stem(source.value), Stem(driving.value));
                 var out := OutputPath(model, source.value);
                 && (r.comparison.None? <==>
                       forall i :: 0 <= i < 3 ==>
                         && Glob(run.after, out, patterns[i]) == []
                         && Glob(run.after, Dirname(run.resultPath), patterns[i]) == [])
                 && ((exists i :: 0 <= i < 3 && Glob(run.after, out, patterns[i]) != []) ==>
                       r.comparison == FirstGlob(run.after, out, patterns))
                 && ((forall i :: 0 <= i < 3 ==> Glob(run.after, out, patterns[i]) == []) ==>
                       r.comparison == FirstGlob(run.after, Dirname(run.resultPath), patterns))
  {
    if create.CreateRaised? || source.None? || run.ReenactRaised? || driving.None? then
      ReenactResponse(None, None)
    else
      var patterns := ComparisonPatterns(Stem(source.value), Stem(driving.value));
      var comparison := SearchWithFallback(run.after, OutputPath(model, source.value), Dirname(run.resultPath), patterns);
      ReenactResponse(Some(run.resultPath), comparison)
  }

  lemma ExactPatternIsPlainName(sourceStem: string, drivingStem: string)
    requires Star !in sourceStem && Star !in drivingStem
    requires Sep !in sourceStem && Sep !in drivingStem
    ensures var exact := ComparisonPatterns(sourceStem, drivingStem)[0];
            exact != [] && Star !in exact && Sep !in exact
  {
    assert Star !in ComparisonPrefix && Star !in "_by_" && Star !in VideoExt;
    assert Sep !in ComparisonPrefix && Sep !in "_by_" && Sep !in VideoExt;
  }

  /** Unfolds the handler's comparison search for a successful run. */
  lemma ComparisonIsSearchResult(source: string, driving: string, model: string, resultPath: string, after: FileSystem)
    ensures ReenactFace(Some(source), Some(driving), model, Created, Reenacted(resultPath, after)).comparison ==
            SearchWithFallback(after, OutputPath(model, source), Dirname(resultPath),
                               ComparisonPatterns(Stem(source), Stem(driving)))
  {
  }

  /** The exact comparison name in the output path is returned even when the
      wildcard patterns would also match other files, provided neither stem
      contains a wildcard. */
  lemma ExactComparisonPreferred(source: string, driving: string, model: string, resultPath: string, after: FileSystem)
    requires Star !in Stem(source) && Star !in Stem(driving)
    requires var exact := ComparisonPrefix + Stem(source) + "_by_" + Stem(driving) + VideoExt;
             after.Exists(Join(OutputPath(model, source), exact))
    ensures var exact := ComparisonPrefix + Stem(source) + "_by_" + Stem(driving) + VideoExt;
            ReenactFace(Some(source), Some(driving), model, Created, Reenacted(resultPath, after)).comparison ==
              Some(Join(OutputPath(model, source), exact))
  {
    var patterns := ComparisonPatterns(Stem(source), Stem(driving));
    assert patterns[0] == ComparisonPrefix + Stem(source) + "_by_" + Stem(driving) + VideoExt;
    var out := OutputPath(model, source);
    ExactPatternIsPlainName(Stem(source), Stem(driving));
    ExactNameWins(after, out, Dirname(resultPath), patterns);
    ComparisonIsSearchResult(source, driving, model, resultPath, after);
  }

  /** The second pattern is a literal prefix, one `*`, and `.mp4`. */
  lemma SourcePatternShape(sourceStem: string, drivingStem: string)
    requires Star !in sourceStem
    ensures var prefix := ComparisonPrefix + sourceStem + "_by_";
            && ComparisonPatterns(sourceStem, drivingStem)[1] == prefix + [Star] + VideoExt
            && Star !in prefix && Star !in VideoExt
  {
    assert Star !in ComparisonPrefix && Star !in "_by_" && Star !in VideoExt;
  }

  /** The second pattern matches exactly the comparison videos of this source,
      whatever the driving video: names that start with the source's prefix
      and end in `.mp4`. */
  lemma SourcePatternMatches(sourceStem: string, drivingStem: string, name: string)
    requires Star !in sourceStem
    ensures var prefix := ComparisonPrefix + sourceStem + "_by_";
            Matches(ComparisonPatterns(sourceStem, drivingStem)[1], name) <==>
              |name| >= |prefix| + |VideoExt| && name[..|prefix|] == prefix && name[|name| - |VideoExt|..] == VideoExt
  {
    var prefix := ComparisonPrefix + sourceStem + "_by_";
    SourcePatternShape(sourceStem, drivingStem);
    PrefixStarSuffixMatches(prefix, VideoExt, name);
  }

  /** The catch-all third pattern matches exactly the comparison videos of
      any source and driving video: names that start with `comparison_` and
      end in `.mp4`. */
  lemma GenericPatternMatches(sourceStem: string, drivingStem: string, name: string)
    ensures Matches(ComparisonPatterns(sourceStem, drivingStem)[2], name) <==>
              && |name| >= |ComparisonPrefix| + |VideoExt|
              && name[..|ComparisonPrefix|] == ComparisonPrefix
              && name[|name| - |VideoExt|..] == VideoExt
  {
    assert ComparisonPatterns(sourceStem, drivingStem)[2] == ComparisonPrefix + [Star] + VideoExt;
    assert Star !in ComparisonPrefix && Star !in VideoExt;
    PrefixStarSuffixMatches(ComparisonPrefix, VideoExt, name);
  }

  /** The exact name for a driving video also matches the source-wide
      pattern, so the order of the patterns is what makes it win. */
  lemma ExactNameAlsoMatchesSourcePattern(sourceStem: string, drivingStem: string)
    requires Star !in sourceStem && Star !in drivingStem
    ensures var patterns := ComparisonPatterns(sourceStem, drivingStem);
            Matches(patterns[1], patterns[0])
  {
    var prefix := ComparisonPrefix + sourceStem + "_by_";
    var exact := ComparisonPatterns(sourceStem, drivingStem)[0];
    assert exact == prefix + drivingStem + VideoExt;
    SourcePatternMatches(sourceStem, drivingStem, exact);
    assert exact[..|prefix|] == prefix;
    assert exact[|exact| - |VideoExt|..] == VideoExt;
  }
}

=== FILE: weights.dfy ===
/** The ensemble weight table of the deepfake handler: the requested model
    names are filtered against a fixed registry, each survivor gets its base
    weight, and the weights are rescaled to sum to one. */
module Weights {

  /** One entry of the weight table; the table is a sequence because the
      handler's dict keeps insertion order. */
  datatype Weighted = Weighted(model: string, weight: real)

  const ResnetInception: string := "resnet_inception"
  const EfficientNet: string := "efficientnet"
  const BaseWeight: real := 0.5

  /** The recognised models with their base weights, in insertion order. */
  const Registry: seq<Weighted> := [Weighted(ResnetInception, BaseWeight), Weighted(EfficientNet, BaseWeight)]

  datatype ConfigError = NoModelsSelected

  datatype Config = Configured(weights: seq<Weighted>) | Rejected(error: ConfigError)

  function Models(ws: seq<Weighted>): (names: seq<string>)
    ensures |names| == |ws|
    ensures forall i :: 0 <= i < |ws| ==> names[i] == ws[i].model
  {
    if ws == [] then [] else [ws[0].model] + Models(ws[1..])
  }

  function Total(ws: seq<Weighted>): real {
    if ws == [] then 0.0 else ws[0].weight + Total(ws[1..])
  }

  /** The entries of `table` whose model was requested, in table order. */
  function Select(table: seq<Weighted>, requested: seq<string>): (r: seq<Weighted>)
    ensures forall w :: w in r <==> w in table && w.model in requested
    ensures |r| <= |table|
  {
    if table == [] then []
    else if table[0].model in requested then [table[0]] + Select(table[1..], requested)
    else Select(table[1..], requested)
  }

  /** Every weight divided by `t`, keys and order unchanged. */
  function Scale(ws: seq<Weighted>, t: real): (r: seq<Weighted>)
    requires t != 0.0
    ensures Models(r) == Models(ws)
    ensures forall i :: 0 <= i < |ws| ==> r[i].weight == ws[i].weight / t
  {
    if ws == [] then [] else [Weighted(ws[0].model, ws[0].weight / t)] + Scale(ws[1..], t)
  }

  lemma DivAdd(a: real, b: real, t: real)
    requires t != 0.0
    ensures a / t + b / t == (a + b) / t
  {
  }

  /** Rescaling divides the total by the same factor. */
  lemma {:induction false} TotalOfScale(ws: seq<Weighted>, t: real)
    requires t != 0.0
    ensures Total(Scale(ws, t)) == Total(ws) / t
  {
    if ws != [] {
      TotalOfScale(ws[1..], t);
      assert Scale(ws, t)[1..] == Scale(ws[1..], t);
      DivAdd(ws[0].weight, Total(ws[1..]), t);
    }
  }

  /** Divides by the total when it is positive (the handler's guard). */
  function Normalize(ws: seq<Weighted>): (r: seq<Weighted>)
    ensures Models(r) == Models(ws) && |r| == |ws|
    ensures Total(ws) > 0.0 ==> forall i :: 0 <= i < |ws| ==> r[i].weight == ws[i].weight / Total(ws)
    ensures Total(ws) <= 0.0 ==> r == ws
  {
    var total := Total(ws);
    if total > 0.0 then Scale(ws, total) else ws
  }

  /** A table with a positive total normalises to weights summing to one. */
  lemma NormalizedSumsToOne(ws: seq<Weighted>)
    requires Total(ws) > 0.0
    ensures Total(Normalize(ws)) == 1.0
    ensures Models(Normalize(ws)) == Models(ws)
  {
    var t := Total(ws);
    assert Normalize(ws) == Scale(ws, t);
    TotalOfScale(ws, t);
    assert t / t == 1.0;
  }

  /** The handler's weight configuration: base weights of the recognised
      requested models, rejected when none is recognised, otherwise
      normalised. */
  function Configure(requested: seq<string>): (c: Config)
    ensures c.Rejected? <==> ResnetInception !in requested && EfficientNet !in requested
    ensures c.Configured? ==>
              forall m :: m in Models(c.weights) <==> m in requested && (m == ResnetInception || m == EfficientNet)
  {
    var base := Select(Registry, requested);
    if base == [] then Rejected(NoModelsSelected)
    else Configured(Normalize(base))
  }

  /** The registry filter written out: each registry entry is kept exactly
      when it was requested. */
  lemma SelectRegistry(requested: seq<string>)
    ensures Select(Registry, requested) ==
              (if ResnetInception in requested then [Registry[0]] else []) +
              (if EfficientNet in requested then [Registry[1]] else [])
  {
    assert Registry[1..] == [Registry[1]];
    assert Registry[1..][1..] == [];
  }

  /** With positive weights the total is positive and bounds every weight. */
  lemma {:induction false} TotalBoundsWeights(ws: seq<Weighted>)
    requires forall i :: 0 <= i < |ws| ==> ws[i].weight > 0.0
    ensures ws != [] ==> Total(ws) > 0.0
    ensures forall i :: 0 <= i < |ws| ==> ws[i].weight <= Total(ws)
  {
    if ws != [] {
      TotalBoundsWeights(ws[1..]);
      assert forall i :: 1 <= i < |ws| ==> ws[i] == ws[1..][i - 1];
    }
  }

  lemma QuotientInUnit(part: real, total: real)
    requires 0.0 < part <= total
    ensures 0.0 < part / total <= 1.0
  {
  }

  /** Normalising positive weights puts each of them in (0, 1]. */
  lemma NormalizedWeightsInUnit(ws: seq<Weighted>)
    requires ws != []
    requires forall i :: 0 <= i < |ws| ==> ws[i].weight > 0.0
    ensures forall w :: w in Normalize(ws) ==> 0.0 < w.weight <= 1.0
  {
    TotalBoundsWeights(ws);
    var t := Total(ws);
    var ns := Normalize(ws);
    assert ns == Scale(ws, t);
    forall w | w in ns
      ensures 0.0 < w.weight <= 1.0
    {
      var i :| 0 <= i < |ns| && ns[i] == w;
      assert w.weight == ws[i].weight / t;
      QuotientInUnit(ws[i].weight, t);
    }
  }

  /** Every accepted selection yields weights in (0, 1] that sum to one. */
  lemma ConfiguredWeightsSumToOne(requested: seq<string>)
    requires Configure(requested).Configured?
    ensures Total(Configure(requested).weights) == 1.0
    ensures forall w :: w in Configure(requested).weights ==> 0.0 < w.weight <= 1.0
  {
    var base := Select(Registry, requested);
    assert forall i :: 0 <= i < |base| ==> base[i] in Registry;
    TotalBoundsWeights(base);
    NormalizedSumsToOne(base);
    NormalizedWeightsInUnit(base);
  }

  /** The three non-empty registry selections, normalised. */
  lemma NormalizedRegistryTables()
    ensures Normalize(Registry) == [Weighted(ResnetInception, 0.5), Weighted(EfficientNet, 0.5)]
    ensures Normalize([Registry[0]]) == [Weighted(ResnetInception, 1.0)]
    ensures Normalize([Registry[1]]) == [Weighted(EfficientNet, 1.0)]
  {
    assert Total(Registry) == 1.0 by {
      assert Registry[1..] == [Registry[1]];
      assert Total(Registry[1..]) == 0.5;
    }
    assert Normalize(Registry) == [Weighted(ResnetInception, 0.5), Weighted(EfficientNet, 0.5)] by {
      assert Registry[1..] == [Registry[1]];
      assert Scale(Registry[1..], 1.0) == [Weighted(EfficientNet, 0.5)];
    }
    assert Normalize([Registry[0]]) == [Weighted(ResnetInception, 1.0)] by {
      assert Total([Registry[0]]) == 0.5;
    }
    assert Normalize([Registry[1]]) == [Weighted(EfficientNet, 1.0)] by {
      assert Total([Registry[1]]) == 0.5;
    }
  }

  /** The four selections the handler can see: one model gets weight one,
      both get one half each, and the keys always follow registry order,
      whatever order or repetition the request has. */
  lemma ConfigureCases(requested: seq<string>)
    ensures ResnetInception in requested && EfficientNet in requested ==>
              Configure(requested) == Configured([Weighted(ResnetInception, 0.5), Weighted(EfficientNet, 0.5)])
    ensures ResnetInception in requested && EfficientNet !in requested ==>
              Configure(requested) == Configured([Weighted(ResnetInception, 1.0)])
    ensures ResnetInception !in requested && EfficientNet in requested ==>
              Configure(requested) == Configured([Weighted(EfficientNet, 1.0)])
    ensures ResnetInception !in requested && EfficientNet !in requested ==>
              Configure(requested) == Rejected(NoModelsSelected)
  {
    SelectRegistry(requested);
    NormalizedRegistryTables();
  }

  /** Only which registry names occur matters: order, duplicates and unknown
      names in the request do not change the configuration. */
  lemma ConfigureIgnoresOrderAndUnknowns(a: seq<string>, b: seq<string>)
    requires ResnetInception in a <==> ResnetInception in b
    requires EfficientNet in a <==> EfficientNet in b
    ensures Configure(a) == Configure(b)
  {
    ConfigureCases(a);
    ConfigureCases(b);
  }
}

=== FILE: wrappers.dfy ===
/** The optional value used wherever the application returns `None` for a
    missing path or an absent input. */
module Wrappers {

  datatype Option<+T> = None | Some(value: T)
}
